=== FILE: README.md ===
# BJJ Flow training journal — a Dafny model of its client-side logic

BJJ Flow is a browser journal for Brazilian Jiu-Jitsu training. The user logs
sessions with a type, date, duration, intensity, positions, drills, partners
and notes. The sessions appear as cards on a timeline that can be searched and
filtered by date. A statistics panel totals them. An optional request sends
the last five sessions of the store (the oldest additions; see Findings) to a
text-generation service for feedback.

This project models the pure logic behind those screens as immutable Dafny
datatypes and total functions over `seq<Session>`, and proves what each
operation promises:

- `types.dfy` (`Types`): the five-valued `SessionType`, the `Session` record and
  the id-less `Draft` the editor produces.
- `text.dfy` (`Text`): JavaScript's `trim`, `toLowerCase`, `toUpperCase`, `includes` and `join`.
- `store.dfy` (`Store`): adding (prepend with a fresh id) and confirmed deletion by id.
- `query.dfy` (`Query`): the search and date filter and the stable newest-first sort
  of the timeline.
- `stats.dfy` (`Stats`): the statistics panel (totals, per-type bars, rounded hours)
  and the truncated "Mat Time" label of the header.
- `card.dfy` (`Card`): the display decisions of one session card.
- `form.dfy` (`Form`): the editor's initial state, the user actions on it (fields,
  and the position and drill tag lists with their input boxes and removable
  chips) and submit. The editor keeps a partner list but shows no control for it.
- `insight.dfy` (`Insight`): what the feedback request selects and sends, and its
  fallbacks.

Modelling choices:

- A session's `type` field is kept as the raw string (`kind`). A TypeScript
  string enum is a plain string at run time, and stored sessions are never
  validated. `ParseType` maps the five labels back to `SessionType`, and
  `WellTyped` says a session's type is one of them.
- Dates are already-parsed day numbers. An empty date input is an absent bound (`None`).
- `duration` and `intensity` are plain integers. The documented ranges are the
  predicates `ValidDuration` and `ValidIntensity`, because the type enforces neither.
- Minute totals are unbounded integers. JavaScript's `%` (remainder with the sign of
  the dividend) and `Math.round` (halves rounded up) are written out explicitly.
- The id generator, the confirmation dialog, the clock and the remote service
  are parameters: the fresh id, the user's yes/no, today's date, and a function
  `ask` that replies with a text or fails.

`App.tsx:45-49` searches only the title, the positions and the type;
`Query.DrillsAndNotesNotSearched` proves drills and notes are ignored.

## Model

| member | source | states |
|---|---|---|
| Types.AllTypesEnumerates | types.ts:2-8 | The enumeration has exactly five members, listed once each in declaration order |
| Types.LabelInjective | types.ts:2-8 | Distinct members carry distinct string values |
| Types.ParseType | types.ts:2-8 | A parsed string is exactly the value of the member it names |
| Types.StampRoundTrip | types.ts:18-30 | Adding an id to a draft keeps every other field; removing it gives the draft back |
| Text.Trim | components/SessionForm.tsx:29-30 | The trimmed string neither starts nor ends with white space, and is the input with only white space cut from both ends |
| Text.TrimIdempotent | components/SessionForm.tsx:29-30 | Trimming twice is the same as trimming once |
| Text.TrimEmptyIffBlank | components/SessionForm.tsx:29 | `trim()` is empty exactly when the input is all white space |
| Text.Lower | App.tsx:45-49 | `toLowerCase` keeps the length, lower-cases each character in place, and leaves no upper-case letter |
| Text.LowerIdempotent | App.tsx:45-49 | Lower-casing twice is lower-casing once |
| Text.Includes | App.tsx:47-49 | `includes` holds exactly when the needle occurs at some position of the string |
| Text.JoinLength | services/geminiService.ts:15-17 | A joined list holds all element text plus one separator between each two neighbours |
| Text.JoinSnoc | services/geminiService.ts:15-17 | Appending an element to the list appends a separator and that element to the joined text |
| Store.Add | App.tsx:31-33 | The new session is at index 0 with the given id and the draft's fields; the old store follows unchanged; unique ids stay unique |
| Store.Delete | App.tsx:37-41 | A confirmed delete keeps exactly the sessions without the id, with their multiplicities, in their original order; a declined one changes nothing |
| Store.DeleteAbsent | App.tsx:37-41 | Deleting an id no session has leaves the store exactly as it was |
| Store.DeleteKeepsUniqueIds | App.tsx:39 | Deletion keeps the store's ids unique |
| Query.Select | App.tsx:44-56 | The filter keeps exactly the sessions matching text and date, each as often as in the store, in store order |
| Query.SortByDateDesc | App.tsx:57 | The sort is a permutation, is non-increasing by date, and keeps the store order of sessions sharing a date |
| Query.InsertSorted | App.tsx:57 | Inserting a session into a newest-first list keeps it newest-first |
| Query.InsertOnDate | App.tsx:57 | An inserted session comes before the other sessions of its date and leaves other dates untouched |
| Query.View | App.tsx:43-58 | The timeline holds exactly the matching sessions (a sub-multiset of the store), newest date first, ties in store order |
| Query.ViewWithoutFilters | App.tsx:46-54 | With an empty query and no bounds the timeline holds every session of the store, sorted newest first |
| Query.ViewIdempotent | App.tsx:43-58 | Filtering the timeline again with the same inputs returns it unchanged |
| Query.SortSorted | App.tsx:57 | Sorting an already newest-first list changes nothing |
| Query.BoundsInclusive | App.tsx:51-54 | A session dated exactly on either bound passes the date filter |
| Query.SearchIgnoresQueryCase | App.tsx:45-46 | The query's case does not matter, and an empty query matches every session |
| Query.DrillsAndNotesNotSearched | App.tsx:46-49 | Changing a session's drills or notes never changes whether it matches a query |
| Query.GuardScenario | App.tsx:43-58 | In the two-session example, searching "guard" keeps only the session with the Guard position |
| Stats.SumPermutation | components/StatsBoard.tsx:19-21 | A total over the sessions does not depend on their order |
| Stats.TotalsOfAdded | components/StatsBoard.tsx:19-21 | Adding a session adds its duration, position count and drill count to the totals |
| Stats.ViewTotalsBounded | components/StatsBoard.tsx:20-21 | Position and drill totals of a filtered timeline never exceed those of the store |
| Stats.ViewMinutesBounded | components/StatsBoard.tsx:19 | With non-negative durations a filtered timeline's minutes lie between zero and the store's |
| Stats.MinutesBounded | components/StatsBoard.tsx:19 | Part of a store with non-negative durations has between zero and the store's minutes |
| Stats.Tally | components/StatsBoard.tsx:14-17 | Each bar's count is the number of sessions of its type and is positive; a type has a bar exactly when it occurs |
| Stats.PositiveMembers | components/StatsBoard.tsx:17 | The filter keeps exactly the bars with a positive count |
| Stats.PositiveBarSum | components/StatsBoard.tsx:17 | Dropping the empty bars leaves the total of the bars unchanged |
| Stats.TallyOrdered | components/StatsBoard.tsx:14-17 | The bars come in the order of the enumeration they are built from |
| Stats.TypeDataBars | components/StatsBoard.tsx:14-17 | The chart holds one bar per occurring type, with its count, each type once and in declaration order |
| Stats.BarsCoverSessions | components/StatsBoard.tsx:14-17 | The bar counts add up to the number of sessions minus those whose type is none of the five |
| Stats.BarsCountEverySession | components/StatsBoard.tsx:14-17 | When every session has a valid type the bar counts add up to the number of sessions |
| Stats.RoundedHours | components/StatsBoard.tsx:48 | The hours shown are the nearest whole hour, halves rounded up |
| Stats.Summarize | components/StatsBoard.tsx:11-31 | The panel is absent exactly for an empty list; otherwise it shows the session count, the total minutes, positions and drills, the bars and the rounded hours |
| Stats.SummarizePermutation | components/StatsBoard.tsx:11-48 | The panel depends only on which sessions there are, not on their order |
| Stats.UnfilteredViewSameSummary | components/StatsBoard.tsx:11-48 | The unfiltered timeline yields the same statistics as the store |
| Stats.JsRem | App.tsx:62 | JavaScript's `%` by a positive number: the dividend minus the result is a multiple of the divisor, and the result lies strictly within one divisor of zero on the dividend's side |
| Stats.JsRemUnique | App.tsx:62 | Those clauses fix the result: any value meeting them is `JsRem` |
| Stats.MatTime | App.tsx:60-62 | The label's hours are the floor of the total over 60; the minutes differ from the total by whole hours, lie in 0..59 for a non-negative total (where hours*60 + minutes is the total) and in -59..0 for a negative one |
| Stats.MatTimeNegative | App.tsx:62 | For a negative total that is not a whole number of hours the label's two parts do not add up to the total |
| Stats.HourDisplaysDisagree | App.tsx:62 | The panel's rounded hours exceed the header's truncated hours by one exactly when the leftover minutes are 30 or more |
| Stats.NinetyMinuteScenario | components/StatsBoard.tsx:19-31 | Two sessions of 60 and 30 minutes give two sessions, 90 minutes, and the label 1h 30m |
| Card.IntensityTone | components/SessionCard.tsx:12-16 | Green exactly for levels up to 2, yellow exactly for 3 and 4, red exactly from 5 up: the three cases partition the integers |
| Card.ToneMonotone | components/SessionCard.tsx:12-16 | A higher intensity never gets a calmer colour |
| Card.ToneOnScale | components/SessionCard.tsx:12-16 | For a session whose intensity is on the documented scale 1..5: green exactly for 1 and 2, yellow exactly for 3 and 4, red only for 5 |
| Card.BadgeClass | components/SessionCard.tsx:18-27 | The default badge is used exactly for values outside the enumeration; each type gets its own badge |
| Card.BadgesDistinct | components/SessionCard.tsx:18-27 | The five types get five different badges |
| Card.Heading | components/SessionCard.tsx:60-69 | The heading is never empty: the title when it is a non-empty string, otherwise "Sessão de " followed by the type |
| Card.ChipsOf | components/SessionCard.tsx:94-102 | The "Não especificado" placeholder appears exactly when the list is empty; otherwise every element is shown |
| Card.PartnerRowOf | components/SessionCard.tsx:145-164 | The row is hidden without partners; the noun is singular exactly for one partner; the first min(n,4) partners get avatars in order, each showing the name and its upper-cased first letter; a "+N" badge appears exactly when n > 4 |
| Card.RenderCard | components/SessionCard.tsx:50-166 | The card shows the session's type badge (the default one exactly for an unknown type), its intensity colour, its non-empty heading, its duration in minutes, its position and drill chips (a placeholder exactly for an empty list), its notes block exactly when the notes are non-empty, and its partner row, hidden exactly without partners |
| Card.Initial | components/SessionCard.tsx:157 | An avatar shows one character for a non-empty name: the name's first letter, already in upper case |
| Card.EveryPartnerAccounted | components/SessionCard.tsx:155-164 | Avatars plus the "+N" count account for every partner |
| Form.Initial | components/SessionForm.tsx:12-26 | The editor opens on Gi, 60 minutes, intensity 3, today's date, with every list and input empty |
| Form.AddChip | components/SessionForm.tsx:28-47 | A non-blank input appends exactly its trimmed text at the end, keeps the earlier tags and clears the input; a blank input changes nothing |
| Form.RemoveChip | components/SessionForm.tsx:162 | Removing chip i drops exactly that element and keeps the others in order; an index out of range changes nothing |
| Form.AddTag | components/SessionForm.tsx:28-40 | Adding to the position or drill list touches only that list and its input; scalars and partners stay as they were |
| Form.RemoveTag | components/SessionForm.tsx:160-194 | Removing a position chip (line 162) or a drill chip (line 192) touches only that list; scalars and partners stay as they were |
| Form.CleanInvariant | components/SessionForm.tsx:28-47 | The editor opens with clean tag lists (non-empty, no outer white space), and adding or removing tags keeps them clean |
| Form.Step | components/SessionForm.tsx:84-222 | No control of the editor changes the partner list or the partner input |
| Form.StepKeepsClean | components/SessionForm.tsx:84-222 | Every user action keeps the tag lists clean |
| Form.RunInvariant | components/SessionForm.tsx:84-222 | After any sequence of user actions the partner list is what it was, and clean lists stay clean |
| Form.SubmittedFromEditor | components/SessionForm.tsx:25-62 | Whatever the user does from the opening state, the saved draft has no partners and clean position and drill lists |
| Form.SubmittedTitle | components/SessionForm.tsx:52 | The saved title is the trimmed input, absent exactly when the input is blank, and never empty or padded with white space |
| Form.Submit | components/SessionForm.tsx:49-62 | The saved draft carries the normalised title; notes, date, duration, intensity and the three lists are passed on unchanged; no coach is set |
| Form.SubmittedIsWellTyped | components/SessionForm.tsx:54 | A session saved from the editor has one of the five types |
| Form.SubmittedHeading | components/SessionForm.tsx:52 | A saved session's card shows the trimmed title, or "Sessão de " and the type when the title was blank |
| Insight.Recent | services/geminiService.ts:11 | The selection is the last min(n,5) sessions of the store, in store order |
| Insight.RecentSummary | services/geminiService.ts:11-19 | min(n,5) entries are sent, entry k being the flattened form of the k-th of the last five sessions, in store order |
| Insight.EntryListText | services/geminiService.ts:15-17 | Each joined list is empty for an empty list, the element itself for one element, and otherwise all element text plus ", " between each two neighbours |
| Insight.EntryPartnerAdded | services/geminiService.ts:17 | One more partner adds ", " and that partner's name to the end of the partners text |
| Insight.EntryIgnoresIdDurationIntensity | services/geminiService.ts:11-19 | The id, duration and intensity never reach the service |
| Insight.Insights | services/geminiService.ts:8-44 | An empty journal gets the fixed message; otherwise the service's reply, or the fixed apology when it fails |
| Insight.EmptyJournalNeedsNoService | services/geminiService.ts:9 | For an empty journal the result does not depend on the service |
| Insight.NewSessionsNotRecent | services/geminiService.ts:11 | Once the store holds five sessions a new addition never enters the selection |
| Insight.NewSessionRecentWhileFew | services/geminiService.ts:11 | With fewer than five sessions the new addition is the first entry selected |
| Insight.NewestFiveTracksAdditions | services/geminiService.ts:21 | The intended selection always gains the new addition at its front and drops its oldest |
| Insight.IntendedInsights | services/geminiService.ts:21 | The request built on the newest five: same fixed message and apology, reply for the newest sessions |

## Left out

- Persistence: loading and saving the store as JSON in the browser's local storage (App.tsx:20-29). It is browser I/O; the store is an in-memory sequence.
- `crypto.randomUUID` (App.tsx:32): the fresh id is a parameter of `Store.Add`, with freshness as its precondition.
- `confirm()` (App.tsx:38): the user's answer is a boolean parameter of `Store.Delete`.
- Date parsing, time zones and locale formatting, including invalid dates and the `getDate() + 1` sidebar (components/SessionCard.tsx:29-42, 73). Dates are already-parsed day numbers.
- Query.Matches: an unparseable date is not modelled. The filter compares `new Date(s.date)` with a bound that defaults to -Infinity or +Infinity (App.tsx:51-54), and every comparison with NaN is false, so a session with an unparseable date fails the date test whatever the bounds are and never appears on the timeline. Query.ViewWithoutFilters holds only because every modelled date is a number.
- Text.Lower: case mapping covers ASCII and Latin-1 letters only. Other scripts and multi-character mappings such as "ß" are left as they are, because full Unicode tables are out of scope.
- Card.Initial: upper-cases with the same ASCII and Latin-1 table, for the same reason. JavaScript upper-cases `ÿ` to `Ÿ` (U+0178), `µ` to `Μ` (U+039C) and `ß` to "SS", all outside that table; the model leaves these three unchanged.
- Stats.MatTime: `s.duration || 0` is the duration itself, because durations are integers here. Missing or NaN durations are not modelled.
- Stats.TotalMinutes: fractional minutes from `Number(...)` are not modelled; durations are integers.
- The remote service (services/geminiService.ts:2-6, 21-40): the client, the model name, the prompt text and `JSON.stringify` of the entries are a foreign asynchronous API. The model keeps only what is selected and whether the call replied or failed.
- SenseiInsight.tsx: a loading flag around the remote call; UI plumbing.
- Rendering: JSX, Tailwind layout, and the recharts chart and its colour cycle (components/StatsBoard.tsx:25-89). Only the badge's class string and the intensity's tone are kept.
- `BeltLevel` and `UserProfile` (types.ts:10-37): not used by any code.
- React `useState`/`useMemo` reactivity: each view is a pure function recomputed from the store.
- Form.Step: `handleAddPartner` (components/SessionForm.tsx:42-47) is bound to no control and no partner chip can be removed, so partners entered elsewhere are never edited here; Form.SubmittedFromEditor proves sessions saved from the editor have no partners, and the card's partner row is then always hidden.
- The tab switch, the form's open and close flags and the "clear dates" button (App.tsx:14-18, 34, 117): UI state with no logic.

## Findings

| source | as written | input that shows it | evidently intended | confidence | as-written member | corrected member |
|---|---|---|---|---|---|---|
| services/geminiService.ts:11 | `sessions.slice(-5)` takes the last five array elements, but the store puts each new session first (App.tsx:33), so these are the five oldest additions | a store built by six additions: the request leaves out the newest session, and every later addition too | the five newest sessions, as the prompt's "meus últimos 5 treinos" says: `sessions.slice(0, 5)` | medium, not executed | Insight.NewSessionsNotRecent | Insight.NewestFiveTracksAdditions |

=== FILE: card.dfy ===
/**
 The display decisions of one timeline card (components/SessionCard.tsx):
 the intensity colour, the type badge, the heading, the chip lists with
 their placeholder, the notes block and the partner avatars. The intensity
 colour is kept as one of three tones and the type badge as the class string
 its branch selects; layout and the date sidebar are not modelled.
 */
module Card {
  import opened Types
  import Text

  /** The three intensity colours. */
  datatype Tone = Green | Yellow | Red

  function ToneRank(t: Tone): nat {
    match t
    case Green => 0
    case Yellow => 1
    case Red => 2
  }

  /** `getIntensityColor`: at most 2 is green, at most 4 yellow, anything else red. */
  function IntensityTone(level: int): (t: Tone)
    ensures t == Green <==> level <= 2
    ensures t == Yellow <==> 3 <= level <= 4
    ensures t == Red <==> 5 <= level
  {
    if level <= 2 then Green
    else if level <= 4 then Yellow
    else Red
  }

  /** A higher intensity never gets a calmer colour. */
  lemma ToneMonotone(a: int, b: int)
    requires a <= b
    ensures ToneRank(IntensityTone(a)) <= ToneRank(IntensityTone(b))
  {
  }

  /** On the documented scale: levels 1 and 2 are green, 3 and 4 yellow, 5 red. */
  lemma ToneOnScale(s: Session)
    requires ValidIntensity(s)
    ensures IntensityTone(s.intensity) == Green <==> s.intensity in {1, 2}
    ensures IntensityTone(s.intensity) == Yellow <==> s.intensity in {3, 4}
    ensures IntensityTone(s.intensity) == Red <==> s.intensity == 5
  {
  }

  const DefaultBadge: string := "bg-slate-200 text-slate-700"

  function TypeBadge(t: SessionType): string {
    match t
    case Gi => "bg-blue-600 text-white"
    case NoGi => "bg-slate-800 text-white"
    case Drill => "bg-emerald-500 text-white"
    case OpenMat => "bg-purple-500 text-white"
    case Competition => "bg-red-600 text-white"
  }

  /** `getTypeBadgeColor`: the switch over the five values, with a default for anything else. */
  function BadgeClass(kind: string): (c: string)
    ensures c == DefaultBadge <==> ParseType(kind).None?
    ensures forall t :: Label(t) == kind ==> c == TypeBadge(t)
  {
    match ParseType(kind)
    case Some(t) =>
      LabelInjectiveAll(kind);
      TypeBadge(t)
    case None => DefaultBadge
  }

  lemma LabelInjectiveAll(kind: string)
    ensures forall t :: Label(t) == kind ==> ParseType(kind) == Some(t)
  {
    forall t | Label(t) == kind ensures ParseType(kind) == Some(t) {
      ParseLabel(t);
    }
  }

  /** The five types get five different badges. */
  lemma BadgesDistinct(a: SessionType, b: SessionType)
    ensures BadgeClass(Label(a)) == BadgeClass(Label(b)) <==> a == b
  {
    LabelInjective(a, b);
  }

  const HeadingPrefix: string := "Sessão de "

  /** The card heading: the title when it is a non-empty string, otherwise "Sessão de " and the type. */
  function Heading(s: Session): (h: string)
    ensures h != []
    ensures s.title.Some? && s.title.value != [] ==> h == s.title.value
    ensures s.title.None? || s.title.value == [] ==> h == HeadingPrefix + s.kind
  {
    if s.title.Some? && s.title.value != [] then s.title.value else HeadingPrefix + s.kind
  }

  /** A chip list, or the "Não especificado" placeholder when it is empty. */
  datatype ChipList = NotSpecified | Chips(items: seq<string>)

  function ChipsOf(xs: seq<string>): (c: ChipList)
    ensures c.NotSpecified? <==> xs == []
    ensures c.Chips? ==> c.items == xs
  {
    if |xs| > 0 then Chips(xs) else NotSpecified
  }

  /** One partner avatar: the name as tooltip and its first character upper-cased. */
  datatype Avatar = Avatar(name: string, initial: string)

  /** `p.charAt(0).toUpperCase()`: the name's first letter, in upper case. */
  function Initial(p: string): (i: string)
    ensures |i| == if p == [] then 0 else 1
    ensures p != [] ==> Text.LowerChar(i[0]) == Text.LowerChar(p[0]) && Text.UpperChar(i[0]) == i[0]
  {
    if p == [] then [] else [Text.UpperChar(p[0])]
  }

  function Avatars(ps: seq<string>): (r: seq<Avatar>)
    ensures |r| == |ps|
    ensures forall i :: 0 <= i < |ps| ==> r[i] == Avatar(ps[i], Initial(ps[i]))
  {
    if ps == [] then [] else [Avatar(ps[0], Initial(ps[0]))] + Avatars(ps[1..])
  }

  /** The partner row: hidden without partners; otherwise the count with its noun,
      at most four avatars, and a "+N" badge for the partners beyond four. */
  datatype PartnerRow = NoPartners | Partners(count: nat, noun: string, avatars: seq<Avatar>, overflow: Option<nat>)

  const MaxAvatars: nat := 4

  function PartnerRowOf(ps: seq<string>): (r: PartnerRow)
    ensures r.NoPartners? <==> ps == []
    ensures r.Partners? ==> r.count == |ps|
    ensures r.Partners? ==> (r.noun == "Parceiro" <==> |ps| == 1)
    ensures r.Partners? ==> (r.noun == "Parceiros" <==> |ps| != 1)
    ensures r.Partners? ==> |r.avatars| == if |ps| < MaxAvatars then |ps| else MaxAvatars
    ensures r.Partners? ==> forall i :: 0 <= i < |r.avatars| ==> r.avatars[i] == Avatar(ps[i], Initial(ps[i]))
    ensures r.Partners? ==> (r.overflow.Some? <==> |ps| > MaxAvatars)
    ensures r.Partners? && r.overflow.Some? ==> |r.avatars| + r.overflow.value == |ps|
  {
    if |ps| == 0 then NoPartners
    else
      var n := |ps|;
      var shown := if n < MaxAvatars then ps else ps[..MaxAvatars];
      Partners(n, if n == 1 then "Parceiro" else "Parceiros", Avatars(shown),
               if n > MaxAvatars then Some(n - MaxAvatars) else None)
  }

  /** Everything the card shows. */
  datatype CardView = CardView(
    badge: string,
    tone: Tone,
    heading: string,
    positions: ChipList,
    drills: ChipList,
    notes: Option<string>,
    minutes: int,
    partners: PartnerRow)

  /** The card of one session. */
  function RenderCard(s: Session): (v: CardView)
    ensures v.badge == BadgeClass(s.kind) && (v.badge == DefaultBadge <==> !WellTyped(s))
    ensures v.tone == IntensityTone(s.intensity)
    ensures v.heading == Heading(s) && v.heading != []
    ensures v.positions == ChipsOf(s.positions) && v.drills == ChipsOf(s.drills)
    ensures v.partners == PartnerRowOf(s.partners)
    ensures v.positions.NotSpecified? <==> s.positions == []
    ensures v.drills.NotSpecified? <==> s.drills == []
    ensures v.notes.Some? <==> s.notes != []
    ensures v.notes.Some? ==> v.notes.value == s.notes
    ensures v.partners.NoPartners? <==> s.partners == []
    ensures v.minutes == s.duration
  {
    CardView(BadgeClass(s.kind), IntensityTone(s.intensity), Heading(s),
             ChipsOf(s.positions), ChipsOf(s.drills),
             if s.notes != [] then Some(s.notes) else None,
             s.duration, PartnerRowOf(s.partners))
  }

  /** A card lists every partner: either as an avatar or inside the "+N" count. */
  lemma EveryPartnerAccounted(s: Session)
    requires s.partners != []
    ensures var row := RenderCard(s).partners;
      |row.avatars| + (if row.overflow.Some? then row.overflow.value else 0) == |s.partners|
  {
  }
}

=== FILE: form.dfy ===
/**
 The session editor (components/SessionForm.tsx): its initial state, the
 two tag lists (positions and drills) edited through an input box and
 removable chips, the user actions that change it, and the normalisation
 applied on submit. The editor keeps a partner list and a partner input but
 renders no control for either, so it never changes them. The current date,
 which the editor reads from the clock, is a parameter.
 */
module Form {
  import opened Types
  import opened Text
  import Card

  /** The editor's state. The type select only offers the five enumeration values. */
  datatype FormState = FormState(
    title: string,
    date: int,
    kind: SessionType,
    duration: int,
    intensity: int,
    notes: string,
    posInput: string,
    positions: seq<string>,
    drillInput: string,
    drills: seq<string>,
    partnersInput: string,
    partners: seq<string>)

  /** The editor as it opens: today's date, Gi, 60 minutes, intensity 3, everything else empty. */
  function Initial(today: int): (f: FormState)
    ensures f.kind == Gi && f.duration == 60 && f.intensity == 3 && f.date == today
    ensures f.title == [] && f.notes == []
    ensures f.positions == [] && f.drills == [] && f.partners == []
    ensures f.posInput == [] && f.drillInput == [] && f.partnersInput == []
  {
    FormState([], today, Gi, 60, 3, [], [], [], [], [], [], [])
  }

  /** A tag list together with the text of its input box. */
  datatype ChipEdit = ChipEdit(items: seq<string>, input: string)

  /** `handleAddPos` and its two siblings: a non-blank input is trimmed, appended
      and cleared; a blank one changes nothing. */
  function AddChip(e: ChipEdit): (r: ChipEdit)
    ensures !AllSpace(e.input) ==> |r.items| == |e.items| + 1 && r.items[..|e.items|] == e.items
    ensures !AllSpace(e.input) ==> r.items[|e.items|] == Trim(e.input) && r.input == []
    ensures AllSpace(e.input) ==> r == e
  {
    TrimEmptyIffBlank(e.input);
    var t := Trim(e.input);
    if t != [] then ChipEdit(e.items + [t], []) else e
  }

  /** `items.filter((_, idx) => idx !== i)` with the indices of `xs` starting at `k`. */
  function FilterIndex(xs: seq<string>, i: int, k: int): (r: seq<string>)
    ensures k <= i < k + |xs| ==> r == xs[..i - k] + xs[i - k + 1..]
    ensures !(k <= i < k + |xs|) ==> r == xs
  {
    if xs == [] then []
    else
      var rest := FilterIndex(xs[1..], i, k + 1);
      if k != i then
        assert k < i < k + |xs| ==> xs[..i - k] == [xs[0]] + xs[1..][..i - k - 1];
        [xs[0]] + rest
      else rest
  }

  /** Removing chip `i`: exactly that element goes, the rest keep their order. */
  function RemoveChip(xs: seq<string>, i: int): (r: seq<string>)
    ensures 0 <= i < |xs| ==> |r| == |xs| - 1
    ensures 0 <= i < |xs| ==> r == xs[..i] + xs[i + 1..]
    ensures !(0 <= i < |xs|) ==> r == xs
  {
    FilterIndex(xs, i, 0)
  }

  /** Every tag is non-empty and carries no white space at either end. */
  predicate CleanTags(xs: seq<string>) {
    forall i :: 0 <= i < |xs| ==> xs[i] != [] && Trimmed(xs[i])
  }

  /** Adding a tag keeps the tag list clean. */
  lemma AddChipKeepsClean(e: ChipEdit)
    requires CleanTags(e.items)
    ensures CleanTags(AddChip(e).items)
  {
    TrimEmptyIffBlank(e.input);
    if !AllSpace(e.input) {
      var r := AddChip(e).items;
      var t := Trim(e.input);
      assert t != [] && Trimmed(t);
      assert r == e.items + [t];
      forall i | 0 <= i < |r| ensures r[i] != [] && Trimmed(r[i]) {
        if i < |e.items| { assert r[i] == e.items[i]; } else { assert r[i] == t; }
      }
    }
  }

  /** Removing a tag keeps the tag list clean. */
  lemma RemoveChipKeepsClean(xs: seq<string>, i: int)
    requires CleanTags(xs)
    ensures CleanTags(RemoveChip(xs, i))
  {
    if 0 <= i < |xs| {
      var r := RemoveChip(xs, i);
      forall j | 0 <= j < |r| ensures r[j] != [] && Trimmed(r[j]) {
        if j < i { assert r[j] == xs[j]; } else { assert r[j] == xs[j + 1]; }
      }
    }
  }

  /** The tag lists the editor shows an input box and removable chips for. The
      partner list has neither: `handleAddPartner` is bound to no control. */
  datatype TagList = PositionsList | DrillsList

  function Edit(f: FormState, l: TagList): ChipEdit {
    match l
    case PositionsList => ChipEdit(f.positions, f.posInput)
    case DrillsList => ChipEdit(f.drills, f.drillInput)
  }

  function WithEdit(f: FormState, l: TagList, e: ChipEdit): (g: FormState)
    ensures Edit(g, l) == e
    ensures forall m :: m != l ==> Edit(g, m) == Edit(f, m)
    ensures g.partners == f.partners && g.partnersInput == f.partnersInput
  {
    match l
    case PositionsList => f.(positions := e.items, posInput := e.input)
    case DrillsList => f.(drills := e.items, drillInput := e.input)
  }

  /** The scalar fields of two editor states agree. */
  predicate SameScalars(f: FormState, g: FormState) {
    f.title == g.title && f.date == g.date && f.kind == g.kind && f.duration == g.duration
    && f.intensity == g.intensity && f.notes == g.notes
  }

  /** The add button (or Enter) of list `l`. Nothing outside that list and its input changes. */
  function AddTag(f: FormState, l: TagList): (g: FormState)
    ensures Edit(g, l) == AddChip(Edit(f, l))
    ensures forall m :: m != l ==> Edit(g, m) == Edit(f, m)
    ensures SameScalars(f, g) && g.partners == f.partners && g.partnersInput == f.partnersInput
  {
    WithEdit(f, l, AddChip(Edit(f, l)))
  }

  /** The remove button of chip `i` in list `l`. The input box and everything else are untouched. */
  function RemoveTag(f: FormState, l: TagList, i: int): (g: FormState)
    ensures Edit(g, l) == ChipEdit(RemoveChip(Edit(f, l).items, i), Edit(f, l).input)
    ensures forall m :: m != l ==> Edit(g, m) == Edit(f, m)
    ensures SameScalars(f, g) && g.partners == f.partners && g.partnersInput == f.partnersInput
  {
    WithEdit(f, l, ChipEdit(RemoveChip(Edit(f, l).items, i), Edit(f, l).input))
  }

  /** All three tag lists are clean. */
  predicate Clean(f: FormState) {
    CleanTags(f.positions) && CleanTags(f.drills) && CleanTags(f.partners)
  }

  lemma CleanByLists(f: FormState)
    ensures Clean(f) <==> CleanTags(f.partners) && forall l :: CleanTags(Edit(f, l).items)
  {
    assert Edit(f, PositionsList).items == f.positions;
    assert Edit(f, DrillsList).items == f.drills;
  }

  /** The editor opens clean, and adding or removing tags keeps it clean. */
  lemma CleanInvariant(f: FormState, l: TagList, i: int, today: int)
    ensures Clean(Initial(today))
    ensures Clean(f) ==> Clean(AddTag(f, l)) && Clean(RemoveTag(f, l, i))
  {
    if Clean(f) {
      CleanByLists(f);
      CleanByLists(AddTag(f, l));
      CleanByLists(RemoveTag(f, l, i));
      AddChipKeepsClean(Edit(f, l));
      RemoveChipKeepsClean(Edit(f, l).items, i);
    }
  }

  /** What the user can do in the editor: change a field, type into a tag box,
      press its add button (or Enter), or remove a chip. */
  datatype Action =
    | SetTitle(title: string)
    | SetDate(date: int)
    | SetKind(kind: SessionType)
    | SetDuration(duration: int)
    | SetIntensity(intensity: int)
    | SetNotes(notes: string)
    | TypeTag(list: TagList, text: string)
    | AddPressed(list: TagList)
    | RemovePressed(list: TagList, index: int)

  /** One user action. No action reaches the partner list or its input. */
  function Step(f: FormState, a: Action): (g: FormState)
    ensures g.partners == f.partners && g.partnersInput == f.partnersInput
  {
    match a
    case SetTitle(t) => f.(title := t)
    case SetDate(d) => f.(date := d)
    case SetKind(k) => f.(kind := k)
    case SetDuration(n) => f.(duration := n)
    case SetIntensity(n) => f.(intensity := n)
    case SetNotes(n) => f.(notes := n)
    case TypeTag(l, t) => WithEdit(f, l, ChipEdit(Edit(f, l).items, t))
    case AddPressed(l) => AddTag(f, l)
    case RemovePressed(l, i) => RemoveTag(f, l, i)
  }

  /** Every user action keeps the tag lists clean. */
  lemma StepKeepsClean(f: FormState, a: Action)
    requires Clean(f)
    ensures Clean(Step(f, a))
  {
    match a
    case TypeTag(l, t) =>
      var g := Step(f, a);
      CleanByLists(f);
      CleanByLists(g);
      assert Edit(g, l).items == Edit(f, l).items;
    case AddPressed(l) => CleanInvariant(f, l, 0, 0);
    case RemovePressed(l, i) => CleanInvariant(f, l, i, 0);
    case _ =>
  }

  /** The editor after a sequence of user actions. */
  function Run(f: FormState, acts: seq<Action>): FormState
    decreases |acts|
  {
    if acts == [] then f else Run(Step(f, acts[0]), acts[1..])
  }

  /** No sequence of actions changes the partner list, and every reachable state is clean. */
  lemma {:induction false} RunInvariant(f: FormState, acts: seq<Action>)
    ensures Run(f, acts).partners == f.partners
    ensures Clean(f) ==> Clean(Run(f, acts))
    decreases |acts|
  {
    if acts != [] {
      if Clean(f) {
        StepKeepsClean(f, acts[0]);
      }
      RunInvariant(Step(f, acts[0]), acts[1..]);
    }
  }

  /** A session saved from the editor has no partners and clean tag lists, whatever the user did. */
  lemma SubmittedFromEditor(today: int, acts: seq<Action>)
    ensures Submit(Run(Initial(today), acts)).partners == []
    ensures var d := Submit(Run(Initial(today), acts));
      CleanTags(d.positions) && CleanTags(d.drills)
  {
    RunInvariant(Initial(today), acts);
    CleanInvariant(Initial(today), PositionsList, 0, today);
  }

  /** `title.trim() || undefined`: the trimmed title, absent when it is blank. */
  function SubmittedTitle(title: string): (t: Option<string>)
    ensures t.None? <==> AllSpace(title)
    ensures t.Some? ==> t.value == Trim(title) && t.value != [] && Trimmed(t.value)
  {
    TrimEmptyIffBlank(title);
    var t := Trim(title);
    if t != [] then Some(t) else None
  }

  /** `handleSubmit`: the title is normalised; every other field is passed on as is. */
  function Submit(f: FormState): (d: Draft)
    ensures d.title == SubmittedTitle(f.title)
    ensures d.kind == Label(f.kind) && d.date == f.date
    ensures d.duration == f.duration && d.intensity == f.intensity && d.notes == f.notes
    ensures d.positions == f.positions && d.drills == f.drills && d.partners == f.partners
    ensures d.coach.None?
  {
    Draft(SubmittedTitle(f.title), f.date, Label(f.kind), f.duration, f.intensity,
          f.positions, f.drills, f.notes, f.partners, None)
  }

  /** A session saved from the editor has one of the five types. */
  lemma SubmittedIsWellTyped(f: FormState, id: string)
    ensures WellTyped(Stamp(Submit(f), id))
  {
    ParseLabel(f.kind);
  }

  /** The card of a saved session is headed by the trimmed title, or by the type when the title was blank. */
  lemma SubmittedHeading(f: FormState, id: string)
    ensures AllSpace(f.title) ==> Card.Heading(Stamp(Submit(f), id)) == Card.HeadingPrefix + Label(f.kind)
    ensures !AllSpace(f.title) ==> Card.Heading(Stamp(Submit(f), id)) == Trim(f.title)
  {
  }
}

=== FILE: insight.dfy ===
/**
 The feedback request (services/geminiService.ts, `getTechnicalInsights`):
 the guard for an empty journal, the selection and flattening of the
 sessions sent to the text-generation service, and the fallback when the
 service fails. The service itself is a parameter `ask` that either replies
 with a text or fails; the prompt wording and the client are not modelled.
 */
module Insight {
  import opened Types
  import Text
  import Store

  /** One session as sent to the service: lists flattened, id, duration and intensity dropped. */
  datatype Entry = Entry(
    title: Option<string>,
    date: int,
    kind: string,
    positions: string,
    drills: string,
    partners: string,
    notes: string)

  const Separator: string := ", "

  const EmptyMessage: string := "Adicione alguns treinos para receber insights do Sensei AI."
  const Apology: string := "Desculpe, o Sensei AI está meditando no momento. Tente novamente mais tarde."

  /** What the service did with the request. */
  datatype Reply = Replied(text: string) | Failed

  function EntryOf(s: Session): (e: Entry)
    ensures e.title == s.title && e.date == s.date && e.kind == s.kind && e.notes == s.notes
    ensures e.positions == Text.Join(s.positions, Separator)
    ensures e.drills == Text.Join(s.drills, Separator)
    ensures e.partners == Text.Join(s.partners, Separator)
  {
    Entry(s.title, s.date, s.kind,
          Text.Join(s.positions, Separator),
          Text.Join(s.drills, Separator),
          Text.Join(s.partners, Separator),
          s.notes)
  }

  /** Each list is sent as one string: empty for an empty list, the element itself for a
      one-element list, and otherwise all of its text plus one ", " between neighbours. */
  lemma EntryListText(s: Session)
    ensures s.positions == [] ==> EntryOf(s).positions == []
    ensures s.drills == [] ==> EntryOf(s).drills == []
    ensures s.partners == [] ==> EntryOf(s).partners == []
    ensures |s.positions| == 1 ==> EntryOf(s).positions == s.positions[0]
    ensures |s.drills| == 1 ==> EntryOf(s).drills == s.drills[0]
    ensures |s.partners| == 1 ==> EntryOf(s).partners == s.partners[0]
    ensures s.positions != [] ==>
      |EntryOf(s).positions| == Text.TotalLength(s.positions) + 2 * (|s.positions| - 1)
    ensures s.drills != [] ==>
      |EntryOf(s).drills| == Text.TotalLength(s.drills) + 2 * (|s.drills| - 1)
    ensures s.partners != [] ==>
      |EntryOf(s).partners| == Text.TotalLength(s.partners) + 2 * (|s.partners| - 1)
  {
    if s.positions != [] { Text.JoinLength(s.positions, Separator); }
    if s.drills != [] { Text.JoinLength(s.drills, Separator); }
    if s.partners != [] { Text.JoinLength(s.partners, Separator); }
  }

  /** Adding a partner to a session appends ", " and that name to what is sent. */
  lemma EntryPartnerAdded(s: Session, p: string)
    requires s.partners != []
    ensures EntryOf(s.(partners := s.partners + [p])).partners == EntryOf(s).partners + Separator + p
  {
    Text.JoinSnoc(s.partners, p, Separator);
  }

  /** The id, duration and intensity of a session never reach the service. */
  lemma EntryIgnoresIdDurationIntensity(s: Session, id: string, duration: int, intensity: int)
    ensures EntryOf(s.(id := id, duration := duration, intensity := intensity)) == EntryOf(s)
  {
  }

  /** `sessions.slice(-5)`: the last five elements of the array, in array order. */
  function Recent(sessions: seq<Session>): (r: seq<Session>)
    ensures |r| == if |sessions| < 5 then |sessions| else 5
    ensures r == sessions[|sessions| - |r|..]
  {
    if |sessions| <= 5 then sessions else sessions[|sessions| - 5..]
  }

  /** `.map(...)`: the entry of each session, in order. */
  function Entries(s: seq<Session>): seq<Entry> {
    if s == [] then [] else [EntryOf(s[0])] + Entries(s[1..])
  }

  lemma {:induction false} EntriesAt(s: seq<Session>, i: nat)
    requires i < |s|
    ensures |Entries(s)| == |s| && Entries(s)[i] == EntryOf(s[i])
  {
    EntriesLength(s);
    if i > 0 {
      EntriesAt(s[1..], i - 1);
    }
  }

  lemma {:induction false} EntriesLength(s: seq<Session>)
    ensures |Entries(s)| == |s|
  {
    if s != [] {
      EntriesLength(s[1..]);
    }
  }

  /** `recentSessions`: the entries of the last five sessions of the store, in store order. */
  function RecentSummary(sessions: seq<Session>): (r: seq<Entry>)
    ensures |r| == if |sessions| < 5 then |sessions| else 5
    ensures forall k :: |sessions| - |r| <= k < |sessions| ==> r[k - (|sessions| - |r|)] == EntryOf(sessions[k])
  {
    var recent := Recent(sessions);
    var start := |sessions| - |recent|;
    var r := Entries(recent);
    EntriesLength(recent);
    forall k | start <= k < |sessions| ensures r[k - start] == EntryOf(sessions[k]) {
      EntriesAt(recent, k - start);
      assert recent[k - start] == sessions[k];
    }
    r
  }

  /** The whole request: the fixed message for an empty journal, the reply of the
      service, or the apology when the service fails. */
  function Insights(sessions: seq<Session>, ask: seq<Entry> -> Reply): (r: string)
    ensures sessions == [] ==> r == EmptyMessage
    ensures sessions != [] && ask(RecentSummary(sessions)).Failed? ==> r == Apology
    ensures sessions != [] && ask(RecentSummary(sessions)).Replied? ==> r == ask(RecentSummary(sessions)).text
  {
    if |sessions| == 0 then EmptyMessage
    else
      match ask(RecentSummary(sessions))
      case Replied(text) => text
      case Failed => Apology
  }

  /** For an empty journal the answer does not depend on the service at all. */
  lemma EmptyJournalNeedsNoService(ask1: seq<Entry> -> Reply, ask2: seq<Entry> -> Reply)
    ensures Insights([], ask1) == Insights([], ask2) == EmptyMessage
  {
  }

  /** The store puts new sessions in front, so `slice(-5)` picks the five OLDEST
      additions: once the store holds five sessions, adding another one leaves
      the selection unchanged. */
  lemma NewSessionsNotRecent(store: seq<Session>, d: Draft, id: string)
    requires FreshId(store, id) && |store| >= 5
    ensures Recent(Store.Add(store, d, id)) == Recent(store)
    ensures Stamp(d, id) !in Recent(Store.Add(store, d, id))
  {
    var r := Store.Add(store, d, id);
    assert r[|r| - 5..] == store[|store| - 5..];
    assert Stamp(d, id) !in store;
  }

  /** Below five sessions the new one is included, as the first entry. */
  lemma NewSessionRecentWhileFew(store: seq<Session>, d: Draft, id: string)
    requires FreshId(store, id) && |store| < 5
    ensures Recent(Store.Add(store, d, id))[0] == Stamp(d, id)
  {
  }

  /** The five newest additions, which the newest-first store keeps at its front. */
  function NewestFive(sessions: seq<Session>): (r: seq<Session>)
    ensures |r| == if |sessions| < 5 then |sessions| else 5
    ensures r == sessions[..|r|]
  {
    if |sessions| <= 5 then sessions else sessions[..5]
  }

  /** Every addition enters the newest five at the front and pushes the oldest of them out. */
  lemma NewestFiveTracksAdditions(store: seq<Session>, d: Draft, id: string)
    requires FreshId(store, id)
    ensures NewestFive(Store.Add(store, d, id))
            == [Stamp(d, id)] + NewestFive(store)[..if |store| < 4 then |store| else 4]
  {
    var r := Store.Add(store, d, id);
    var k := if |store| < 4 then |store| else 4;
    assert r[..k + 1] == [Stamp(d, id)] + store[..k];
  }

  /** The request as its prompt describes it ("my last 5 sessions"): the entries of
      the five newest additions. */
  function IntendedInsights(sessions: seq<Session>, ask: seq<Entry> -> Reply): (r: string)
    ensures sessions == [] ==> r == EmptyMessage
    ensures sessions != [] && ask(Entries(NewestFive(sessions))).Failed? ==> r == Apology
    ensures sessions != [] && ask(Entries(NewestFive(sessions))).Replied? ==> r == ask(Entries(NewestFive(sessions))).text
  {
    if |sessions| == 0 then EmptyMessage
    else
      match ask(Entries(NewestFive(sessions)))
      case Replied(text) => text
      case Failed => Apology
  }
}

=== FILE: query.dfy ===
/**
 The timeline view of the root component (App.tsx, `filteredSessions`): the
 store filtered by a free-text query and an optional date range, then sorted
 newest date first with a stable sort. Dates are day numbers; an empty date
 input is an absent bound.
 */
module Query {
  import opened Types
  import opened Text
  import Store

  /** Some element of `xs`, lower-cased, includes `q` (`xs.some(p => p.toLowerCase().includes(q))`). */
  predicate AnyIncludes(xs: seq<string>, q: string) {
    exists i :: 0 <= i < |xs| && Includes(Lower(xs[i]), q)
  }

  /** The search condition: an empty query matches every session; otherwise the
      lower-cased query must occur in the title, in one of the positions or in
      the type. Drills and notes are not searched. */
  predicate TextMatches(s: Session, query: string) {
    var q := Lower(query);
    q == []
    || (s.title.Some? && Includes(Lower(s.title.value), q))
    || AnyIncludes(s.positions, q)
    || Includes(Lower(s.kind), q)
  }

  /** The date condition: inclusive at both ends, an absent bound is unbounded. */
  predicate DateMatches(s: Session, start: Option<int>, end: Option<int>) {
    (start.None? || start.value <= s.date) && (end.None? || s.date <= end.value)
  }

  predicate Matches(s: Session, query: string, start: Option<int>, end: Option<int>) {
    TextMatches(s, query) && DateMatches(s, start, end)
  }

  /** The `filter` step: the matching sessions in store order. */
  function Select(store: seq<Session>, query: string, start: Option<int>, end: Option<int>): (r: seq<Session>)
    ensures forall x :: multiset(r)[x] == if Matches(x, query, start, end) then multiset(store)[x] else 0
    ensures Store.IsSubsequence(r, store)
  {
    if store == [] then []
    else
      var rest := Select(store[1..], query, start, end);
      assert store == [store[0]] + store[1..];
      if Matches(store[0], query, start, end) then
        assert ([store[0]] + rest)[1..] == rest;
        [store[0]] + rest
      else rest
  }

  /** Non-increasing by date. */
  ghost predicate SortedDesc(s: seq<Session>) {
    forall i, j :: 0 <= i < j < |s| ==> s[i].date >= s[j].date
  }

  /** The sessions of `s` dated `d`, in their order in `s`. */
  function OnDate(s: seq<Session>, d: int): seq<Session> {
    if s == [] then []
    else if s[0].date == d then [s[0]] + OnDate(s[1..], d)
    else OnDate(s[1..], d)
  }

  /** Places `x` before the first session dated no later than it. */
  function Insert(x: Session, t: seq<Session>): (r: seq<Session>)
    ensures multiset(r) == multiset{x} + multiset(t)
    ensures r[0] == x || (t != [] && r[0] == t[0])
  {
    if t == [] || x.date >= t[0].date then [x] + t
    else
      assert t == [t[0]] + t[1..];
      [t[0]] + Insert(x, t[1..])
  }

  /** Inserting into a sorted list keeps it sorted. */
  lemma {:induction false} InsertSorted(x: Session, t: seq<Session>)
    requires SortedDesc(t)
    ensures SortedDesc(Insert(x, t))
  {
    if t == [] || x.date >= t[0].date {
      SortedCons(x, t);
    } else {
      SortedTail(t);
      InsertSorted(x, t[1..]);
      InsertAtMost(x, t[1..], t[0].date);
      SortedCons(t[0], Insert(x, t[1..]));
    }
  }

  /** No session of `s` is dated after `d`. */
  ghost predicate AtMost(s: seq<Session>, d: int) {
    forall j :: 0 <= j < |s| ==> s[j].date <= d
  }

  lemma SortedTail(t: seq<Session>)
    requires t != [] && SortedDesc(t)
    ensures SortedDesc(t[1..]) && AtMost(t[1..], t[0].date)
  {
    forall i, j | 0 <= i < j < |t[1..]| ensures t[1..][i].date >= t[1..][j].date {
      assert t[1..][i] == t[i + 1] && t[1..][j] == t[j + 1];
    }
    forall j | 0 <= j < |t[1..]| ensures t[1..][j].date <= t[0].date {
      assert t[1..][j] == t[j + 1];
    }
  }

  lemma SortedCons(h: Session, t: seq<Session>)
    requires SortedDesc(t) && (t == [] || h.date >= t[0].date)
    ensures SortedDesc([h] + t)
  {
    var r := [h] + t;
    forall i, j | 0 <= i < j < |r| ensures r[i].date >= r[j].date {
      assert r[j] == t[j - 1];
      if i > 0 { assert r[i] == t[i - 1]; } else { assert t[0].date >= t[j - 1].date || j == 1; }
    }
  }

  lemma {:induction false} InsertAtMost(x: Session, t: seq<Session>, d: int)
    requires AtMost(t, d) && x.date <= d
    ensures AtMost(Insert(x, t), d)
    ensures Insert(x, t)[0].date <= d
  {
    if t != [] && x.date < t[0].date {
      assert AtMost(t[1..], d) by {
        forall j | 0 <= j < |t[1..]| ensures t[1..][j].date <= d { assert t[1..][j] == t[j + 1]; }
      }
      InsertAtMost(x, t[1..], d);
      var r := Insert(x, t);
      assert r == [t[0]] + Insert(x, t[1..]);
      forall j | 0 <= j < |r| ensures r[j].date <= d {
        if j > 0 { assert r[j] == Insert(x, t[1..])[j - 1]; }
      }
    } else {
      var r := Insert(x, t);
      assert r == [x] + t;
      forall j | 0 <= j < |r| ensures r[j].date <= d {
        if j > 0 { assert r[j] == t[j - 1]; }
      }
    }
  }

  /** Among the sessions sharing its date, `x` comes first; other dates are untouched. */
  lemma {:induction false} InsertOnDate(x: Session, t: seq<Session>, d: int)
    ensures OnDate(Insert(x, t), d) == if x.date == d then [x] + OnDate(t, d) else OnDate(t, d)
  {
    if t == [] || x.date >= t[0].date {
      assert ([x] + t)[1..] == t;
    } else {
      var rest := Insert(x, t[1..]);
      InsertOnDate(x, t[1..], d);
      assert ([t[0]] + rest)[1..] == rest;
    }
  }

  /** `.sort((a, b) => b.date - a.date)`: a stable sort, newest date first. */
  function SortByDateDesc(s: seq<Session>): (r: seq<Session>)
    ensures multiset(r) == multiset(s)
    ensures SortedDesc(r)
    ensures forall d :: OnDate(r, d) == OnDate(s, d)
  {
    if s == [] then []
    else
      assert s == [s[0]] + s[1..];
      var t := SortByDateDesc(s[1..]);
      InsertSorted(s[0], t);
      forall d ensures OnDate(Insert(s[0], t), d) == OnDate(s, d) {
        InsertOnDate(s[0], t, d);
      }
      Insert(s[0], t)
  }

  /** `filteredSessions`: the matching sessions, newest date first, ties in store order. */
  function View(store: seq<Session>, query: string, start: Option<int>, end: Option<int>): (r: seq<Session>)
    ensures forall x :: multiset(r)[x] == if Matches(x, query, start, end) then multiset(store)[x] else 0
    ensures multiset(r) <= multiset(store)
    ensures SortedDesc(r)
    ensures forall d :: OnDate(r, d) == OnDate(Select(store, query, start, end), d)
  {
    SortByDateDesc(Select(store, query, start, end))
  }

  /** With an empty query and no bounds every session of the store is in the view. */
  lemma ViewWithoutFilters(store: seq<Session>)
    ensures multiset(View(store, "", None, None)) == multiset(store)
    ensures SortedDesc(View(store, "", None, None))
  {
    var r := View(store, "", None, None);
    assert Lower("") == [];
    assert forall x :: multiset(r)[x] == multiset(store)[x];
  }

  /** A session dated exactly on either bound is kept by the date condition. */
  lemma BoundsInclusive(s: Session, start: int, end: int)
    requires start <= end && (s.date == start || s.date == end)
    ensures DateMatches(s, Some(start), Some(end))
  {
  }

  /** The case of the query does not matter, and an empty query matches every session. */
  lemma SearchIgnoresQueryCase(s: Session, query: string)
    ensures TextMatches(s, Lower(query)) == TextMatches(s, query)
    ensures TextMatches(s, "")
  {
    LowerIdempotent(query);
    assert Lower("") == [];
  }

  /** Search ignores the drills and the notes of a session. */
  lemma DrillsAndNotesNotSearched(s: Session, drills: seq<string>, notes: string, query: string)
    ensures TextMatches(s.(drills := drills, notes := notes), query) == TextMatches(s, query)
  {
  }

  /** Sorting a list already sorted newest first returns it unchanged. */
  lemma {:induction false} SortSorted(s: seq<Session>)
    requires SortedDesc(s)
    ensures SortByDateDesc(s) == s
  {
    if s != [] {
      assert SortedDesc(s[1..]);
      SortSorted(s[1..]);
    }
  }

  /** Every session kept by the filter already matches. */
  lemma {:induction false} SelectAllMatching(s: seq<Session>, query: string, start: Option<int>, end: Option<int>)
    requires forall i :: 0 <= i < |s| ==> Matches(s[i], query, start, end)
    ensures Select(s, query, start, end) == s
  {
    if s != [] {
      SelectAllMatching(s[1..], query, start, end);
    }
  }

  /** Running the view on its own output changes nothing. */
  lemma ViewIdempotent(store: seq<Session>, query: string, start: Option<int>, end: Option<int>)
    ensures View(View(store, query, start, end), query, start, end) == View(store, query, start, end)
  {
    var v := View(store, query, start, end);
    forall i | 0 <= i < |v| ensures Matches(v[i], query, start, end) {
      assert multiset(v)[v[i]] > 0;
    }
    SelectAllMatching(v, query, start, end);
    SortSorted(v);
  }

  /** The two-session example: searching "guard" keeps only the Gi session with the Guard position. */
  lemma GuardScenario(gi: Session, nogi: Session)
    requires gi == Session("a", None, 1, "Gi", 60, 3, ["Guard"], [], "", [], None)
    requires nogi == Session("b", None, 32, "No-Gi", 30, 3, [], [], "", [], None)
    ensures View([gi, nogi], "guard", None, None) == [gi]
  {
    GuardMatches(gi);
    NoGiMisses(nogi);
    assert [gi, nogi][1..] == [nogi];
    assert Select([nogi], "guard", None, None) == [];
    assert Select([gi, nogi], "guard", None, None) == [gi];
    SortSorted([gi]);
  }

  lemma GuardMatches(gi: Session)
    requires gi.positions == ["Guard"]
    ensures TextMatches(gi, "guard")
  {
    LowerGuard();
    assert OccursAt("guard", "guard", 0);
    assert Includes(Lower(gi.positions[0]), "guard");
  }

  lemma NoGiMisses(nogi: Session)
    requires nogi.title == None && nogi.positions == [] && nogi.kind == "No-Gi"
    ensures !TextMatches(nogi, "guard")
  {
    LowerGuard();
    LowerPointwise("No-Gi", "no-gi");
    assert !Includes("no-gi", "guard") by {
      forall i | OccursAt("no-gi", "guard", i) ensures false {
      }
    }
  }

  lemma LowerGuard()
    ensures Lower("guard") == "guard"
    ensures Lower("Guard") == "guard"
  {
    LowerPointwise("guard", "guard");
    LowerPointwise("Guard", "guard");
  }
}

=== FILE: stats.dfy ===
/**
 Aggregates over a list of sessions: the statistics panel
 (components/StatsBoard.tsx) and the "Mat Time" label of the header
 (App.tsx, `totalTimeLabel`).
 */
module Stats {
  import opened Types
  import Query

  /** `s.reduce((acc, x) => acc + f(x), 0)`. */
  function Sum(s: seq<Session>, f: Session -> int): int {
    if s == [] then 0 else f(s[0]) + Sum(s[1..], f)
  }

  lemma {:induction false} SumAppend(a: seq<Session>, b: seq<Session>, f: Session -> int)
    ensures Sum(a + b, f) == Sum(a, f) + Sum(b, f)
  {
    if a == [] {
      assert a + b == b;
    } else {
      assert (a + b)[0] == a[0];
      assert (a + b)[1..] == a[1..] + b;
      SumAppend(a[1..], b, f);
    }
  }

  /** Finds an occurrence of `x` in `b`; removing it removes one copy of `x`. */
  lemma PickOccurrence<T>(x: T, b: seq<T>) returns (i: nat)
    requires x in multiset(b)
    ensures i < |b| && b[i] == x
    ensures multiset(b[..i] + b[i + 1..]) == multiset(b) - multiset{x}
  {
    i :| 0 <= i < |b| && b[i] == x;
    assert b == b[..i] + [b[i]] + b[i + 1..];
  }

  /** Taking one session out of a list takes its term out of the sum. */
  lemma {:induction false} SumRemove(b: seq<Session>, i: nat, f: Session -> int)
    requires i < |b|
    ensures Sum(b, f) == f(b[i]) + Sum(b[..i] + b[i + 1..], f)
  {
    if i == 0 {
      assert b[..0] + b[1..] == b[1..];
    } else {
      var c := b[..i] + b[i + 1..];
      assert c[0] == b[0];
      assert c[1..] == b[1..][..i - 1] + b[1..][i..];
      SumRemove(b[1..], i - 1, f);
    }
  }

  /** A sum does not depend on the order of the sessions. */
  lemma {:induction false} SumPermutation(a: seq<Session>, b: seq<Session>, f: Session -> int)
    requires multiset(a) == multiset(b)
    ensures Sum(a, f) == Sum(b, f)
  {
    if a != [] {
      assert a[0] in multiset(b);
      var i := PickOccurrence(a[0], b);
      assert a == [a[0]] + a[1..];
      assert multiset(a[1..]) == multiset(a) - multiset{a[0]};
      SumPermutation(a[1..], b[..i] + b[i + 1..], f);
      SumRemove(b, i, f);
    }
  }

  /** A sum of non-negative terms over part of a list is at most the sum over the list. */
  lemma {:induction false} SumSubMultiset(a: seq<Session>, b: seq<Session>, f: Session -> int)
    requires forall x :: f(x) >= 0
    requires multiset(a) <= multiset(b)
    ensures Sum(a, f) <= Sum(b, f)
    decreases |b|
  {
    if a == [] {
      SumNonNegative(b, f);
    } else {
      assert a[0] in multiset(b);
      var i := PickOccurrence(a[0], b);
      assert a == [a[0]] + a[1..];
      assert multiset(a[1..]) == multiset(a) - multiset{a[0]};
      SumSubMultiset(a[1..], b[..i] + b[i + 1..], f);
      SumRemove(b, i, f);
    }
  }

  lemma {:induction false} SumNonNegative(b: seq<Session>, f: Session -> int)
    requires forall x :: f(x) >= 0
    ensures Sum(b, f) >= 0
  {
    if b != [] {
      SumNonNegative(b[1..], f);
    }
  }

  function Minutes(x: Session): int { x.duration }
  function PositionCount(x: Session): int { |x.positions| }
  function DrillCount(x: Session): int { |x.drills| }

  /** `totalMinutes`. */
  function TotalMinutes(s: seq<Session>): int { Sum(s, Minutes) }
  /** `totalPositions`. */
  function TotalPositions(s: seq<Session>): int { Sum(s, PositionCount) }
  /** `totalDrills`. */
  function TotalDrills(s: seq<Session>): int { Sum(s, DrillCount) }

  /** Adding a session adds its duration, positions and drills to the totals. */
  lemma TotalsOfAdded(x: Session, s: seq<Session>)
    ensures TotalMinutes([x] + s) == x.duration + TotalMinutes(s)
    ensures TotalPositions([x] + s) == |x.positions| + TotalPositions(s)
    ensures TotalDrills([x] + s) == |x.drills| + TotalDrills(s)
  {
    assert ([x] + s)[1..] == s;
  }

  /** Position and drill totals of a filtered view never exceed those of the store. */
  lemma ViewTotalsBounded(store: seq<Session>, query: string, start: Option<int>, end: Option<int>)
    ensures TotalPositions(Query.View(store, query, start, end)) <= TotalPositions(store)
    ensures TotalDrills(Query.View(store, query, start, end)) <= TotalDrills(store)
  {
    var v := Query.View(store, query, start, end);
    SumSubMultiset(v, store, PositionCount);
    SumSubMultiset(v, store, DrillCount);
  }

  function ClampedMinutes(x: Session): int {
    if x.duration < 0 then 0 else x.duration
  }

  /** With valid durations, a filtered view's minutes lie between zero and the store's. */
  lemma ViewMinutesBounded(store: seq<Session>, query: string, start: Option<int>, end: Option<int>)
    requires forall i :: 0 <= i < |store| ==> ValidDuration(store[i])
    ensures 0 <= TotalMinutes(Query.View(store, query, start, end)) <= TotalMinutes(store)
  {
    MinutesBounded(Query.View(store, query, start, end), store);
  }

  /** Minutes of part of a store with valid durations lie between zero and the store's. */
  lemma MinutesBounded(v: seq<Session>, store: seq<Session>)
    requires multiset(v) <= multiset(store)
    requires forall i :: 0 <= i < |store| ==> ValidDuration(store[i])
    ensures 0 <= TotalMinutes(v) <= TotalMinutes(store)
  {
    SumCongruent(store, Minutes, ClampedMinutes);
    SumSubMultiset(v, store, ClampedMinutes);
    forall i | 0 <= i < |v| ensures ValidDuration(v[i]) {
      assert v[i] in multiset(v);
      var j :| 0 <= j < |store| && store[j] == v[i];
    }
    SumCongruent(v, Minutes, ClampedMinutes);
    SumNonNegative(v, ClampedMinutes);
  }

  /** Two terms that agree on every session of a list give the same sum over it. */
  lemma {:induction false} SumCongruent(s: seq<Session>, f: Session -> int, g: Session -> int)
    requires forall i :: 0 <= i < |s| ==> f(s[i]) == g(s[i])
    ensures Sum(s, f) == Sum(s, g)
  {
    if s != [] {
      SumCongruent(s[1..], f, g);
    }
  }

  /** One type's bar: the number of sessions of that type. */
  datatype TypeCount = TypeCount(kind: SessionType, count: int)

  /** One for a session of type `t`, zero otherwise. */
  function OfKind(t: SessionType): Session -> int {
    (x: Session) => if x.kind == Label(t) then 1 else 0
  }

  /** `sessions.filter(s => s.type === t).length`. */
  function Count(s: seq<Session>, t: SessionType): (n: int)
    ensures n >= 0
  {
    SumNonNegative(s, OfKind(t));
    Sum(s, OfKind(t))
  }

  /** `.map(type => ({ name: type, count: ... }))`: one bar per type of `ts`, empty ones included. */
  function Counts(s: seq<Session>, ts: seq<SessionType>): (r: seq<TypeCount>)
    ensures |r| == |ts|
    ensures forall i :: 0 <= i < |ts| ==> r[i] == TypeCount(ts[i], Count(s, ts[i]))
  {
    if ts == [] then [] else [TypeCount(ts[0], Count(s, ts[0]))] + Counts(s, ts[1..])
  }

  /** `.filter(d => d.count > 0)`: the bars with a positive count, in their order. */
  function Positive(bars: seq<TypeCount>): seq<TypeCount> {
    if bars == [] then []
    else if bars[0].count > 0 then [bars[0]] + Positive(bars[1..])
    else Positive(bars[1..])
  }

  /** The filter keeps exactly the bars with a positive count. */
  lemma {:induction false} PositiveMembers(bars: seq<TypeCount>)
    ensures forall b :: b in Positive(bars) <==> b in bars && b.count > 0
  {
    if bars != [] {
      PositiveMembers(bars[1..]);
      assert bars == [bars[0]] + bars[1..];
    }
  }

  /** The bars for the types of `ts`, in the order of `ts`, zero counts dropped. */
  function Tally(s: seq<Session>, ts: seq<SessionType>): (r: seq<TypeCount>)
    ensures forall i :: 0 <= i < |r| ==> r[i].kind in ts && r[i].count == Count(s, r[i].kind) > 0
    ensures forall t :: t in ts ==> (TypeCount(t, Count(s, t)) in r <==> Count(s, t) > 0)
  {
    var bars := Counts(s, ts);
    var r := Positive(bars);
    PositiveMembers(bars);
    forall i | 0 <= i < |r| ensures r[i].kind in ts && r[i].count == Count(s, r[i].kind) > 0 {
      assert r[i] in r;
      var k :| 0 <= k < |bars| && bars[k] == r[i];
    }
    forall t | t in ts ensures TypeCount(t, Count(s, t)) in bars {
      var k :| 0 <= k < |ts| && ts[k] == t;
    }
    r
  }

  /** Bars strictly increasing in declaration order. */
  predicate Ordered(bars: seq<TypeCount>) {
    forall i, j :: 0 <= i < j < |bars| ==> Ordinal(bars[i].kind) < Ordinal(bars[j].kind)
  }

  /** Dropping empty bars keeps the remaining ones in order. */
  lemma {:induction false} PositiveOrdered(bars: seq<TypeCount>)
    requires Ordered(bars)
    ensures Ordered(Positive(bars))
  {
    if bars != [] {
      var rest := Positive(bars[1..]);
      assert Ordered(bars[1..]) by {
        forall i, j | 0 <= i < j < |bars[1..]| ensures Ordinal(bars[1..][i].kind) < Ordinal(bars[1..][j].kind) {
          assert bars[1..][i] == bars[i + 1] && bars[1..][j] == bars[j + 1];
        }
      }
      PositiveOrdered(bars[1..]);
      if bars[0].count > 0 {
        var r := Positive(bars);
        assert r == [bars[0]] + rest;
        forall i, j | 0 <= i < j < |r| ensures Ordinal(r[i].kind) < Ordinal(r[j].kind) {
          assert r[j] == rest[j - 1];
          if i > 0 {
            assert r[i] == rest[i - 1];
          } else {
            PositiveMembers(bars[1..]);
            assert rest[j - 1] in rest;
            var k :| 0 <= k < |bars[1..]| && bars[1..][k] == rest[j - 1];
            assert bars[k + 1] == rest[j - 1];
          }
        }
      }
    }
  }

  /** The bars follow the order of the types they come from. */
  lemma TallyOrdered(s: seq<Session>, ts: seq<SessionType>)
    requires forall i, j :: 0 <= i < j < |ts| ==> Ordinal(ts[i]) < Ordinal(ts[j])
    ensures Ordered(Tally(s, ts))
  {
    var bars := Counts(s, ts);
    assert Ordered(bars);
    PositiveOrdered(bars);
  }

  /** `typeData`: one bar per type in declaration order, for the types that occur. */
  function TypeData(s: seq<Session>): seq<TypeCount> {
    Tally(s, AllTypes)
  }

  /** The panel's bars: each type that occurs, with its count, once and in declaration order. */
  lemma TypeDataBars(s: seq<Session>)
    ensures forall i :: 0 <= i < |TypeData(s)| ==> TypeData(s)[i].count == Count(s, TypeData(s)[i].kind) > 0
    ensures forall t :: TypeCount(t, Count(s, t)) in TypeData(s) <==> Count(s, t) > 0
    ensures forall i, j :: 0 <= i < j < |TypeData(s)| ==> Ordinal(TypeData(s)[i].kind) < Ordinal(TypeData(s)[j].kind)
  {
    AllTypesEnumerates();
    TallyOrdered(s, AllTypes);
  }

  function CountSum(s: seq<Session>, ts: seq<SessionType>): int {
    if ts == [] then 0 else Count(s, ts[0]) + CountSum(s, ts[1..])
  }

  function BarSum(r: seq<TypeCount>): int {
    if r == [] then 0 else r[0].count + BarSum(r[1..])
  }

  /** Dropping the empty bars does not change the total of the bars. */
  lemma {:induction false} PositiveBarSum(bars: seq<TypeCount>)
    requires forall i :: 0 <= i < |bars| ==> bars[i].count >= 0
    ensures BarSum(Positive(bars)) == BarSum(bars)
  {
    if bars != [] {
      PositiveBarSum(bars[1..]);
      if bars[0].count > 0 {
        assert ([bars[0]] + Positive(bars[1..]))[1..] == Positive(bars[1..]);
      }
    }
  }

  lemma {:induction false} CountsBarSum(s: seq<Session>, ts: seq<SessionType>)
    ensures BarSum(Counts(s, ts)) == CountSum(s, ts)
  {
    if ts != [] {
      CountsBarSum(s, ts[1..]);
      assert Counts(s, ts)[1..] == Counts(s, ts[1..]);
    }
  }

  /** The bars add up to the counts of all the types of `ts`. */
  lemma BarSumIsCountSum(s: seq<Session>, ts: seq<SessionType>)
    ensures BarSum(Tally(s, ts)) == CountSum(s, ts)
  {
    PositiveBarSum(Counts(s, ts));
    CountsBarSum(s, ts);
  }

  lemma {:induction false} CountSumEmpty(ts: seq<SessionType>)
    ensures CountSum([], ts) == 0
  {
    if ts != [] {
      CountSumEmpty(ts[1..]);
    }
  }

  /** Number of types in `ts` whose value is `kind`. */
  function Hits(kind: string, ts: seq<SessionType>): int {
    if ts == [] then 0 else (if kind == Label(ts[0]) then 1 else 0) + Hits(kind, ts[1..])
  }

  lemma {:induction false} CountSumStep(x: Session, s: seq<Session>, ts: seq<SessionType>)
    ensures CountSum([x] + s, ts) == Hits(x.kind, ts) + CountSum(s, ts)
  {
    if ts != [] {
      assert ([x] + s)[1..] == s;
      CountSumStep(x, s, ts[1..]);
    }
  }

  /** Over a list of distinct types, a value is counted once when it labels one of them. */
  lemma {:induction false} HitsDistinct(kind: string, ts: seq<SessionType>)
    requires forall i, j :: 0 <= i < j < |ts| ==> ts[i] != ts[j]
    ensures Hits(kind, ts) == if exists i :: 0 <= i < |ts| && Label(ts[i]) == kind then 1 else 0
  {
    if ts != [] {
      var rest := ts[1..];
      HitsDistinct(kind, rest);
      if kind == Label(ts[0]) {
        forall i | 0 <= i < |rest| ensures Label(rest[i]) != kind {
          LabelInjective(ts[0], rest[i]);
          assert rest[i] == ts[i + 1];
        }
      } else if exists i :: 0 <= i < |ts| && Label(ts[i]) == kind {
        var i :| 0 <= i < |ts| && Label(ts[i]) == kind;
        assert Label(rest[i - 1]) == kind;
      } else {
        forall i | 0 <= i < |rest| ensures Label(rest[i]) != kind {
          assert rest[i] == ts[i + 1];
        }
      }
    }
  }

  /** A session counts towards exactly one type when its type is valid, and none otherwise. */
  lemma HitsAllTypes(kind: string)
    ensures Hits(kind, AllTypes) == if ParseType(kind).Some? then 1 else 0
  {
    AllTypesEnumerates();
    HitsDistinct(kind, AllTypes);
    match ParseType(kind)
    case Some(t) =>
      var i := Ordinal(t);
      assert AllTypes[i] == t;
    case None =>
      forall i | 0 <= i < |AllTypes| ensures Label(AllTypes[i]) != kind {
        ParseLabel(AllTypes[i]);
      }
  }

  /** Sessions whose type is not one of the five values. */
  function Untyped(s: seq<Session>): int {
    Sum(s, x => if WellTyped(x) then 0 else 1)
  }

  /** The bar counts add up to the number of sessions, less those with an unknown type. */
  lemma {:induction false} BarsCoverSessions(s: seq<Session>)
    ensures BarSum(TypeData(s)) == |s| - Untyped(s)
  {
    BarSumIsCountSum(s, AllTypes);
    CountSumCoversSessions(s);
  }

  lemma {:induction false} CountSumCoversSessions(s: seq<Session>)
    ensures CountSum(s, AllTypes) == |s| - Untyped(s)
  {
    if s == [] {
      CountSumEmpty(AllTypes);
    } else {
      CountSumCoversSessions(s[1..]);
      assert s == [s[0]] + s[1..];
      CountSumStep(s[0], s[1..], AllTypes);
      HitsAllTypes(s[0].kind);
      assert CountSum(s, AllTypes) == Hits(s[0].kind, AllTypes) + CountSum(s[1..], AllTypes);
      assert Untyped(s) == (if WellTyped(s[0]) then 0 else 1) + Untyped(s[1..]);
      assert WellTyped(s[0]) == ParseType(s[0].kind).Some?;
      assert |s| == 1 + |s[1..]|;
      assert Hits(s[0].kind, AllTypes) == 1 - (if WellTyped(s[0]) then 0 else 1);
      assert CountSum(s[1..], AllTypes) == |s[1..]| - Untyped(s[1..]);
    }
  }

  /** When every session has a valid type the bar counts add up to the number of sessions. */
  lemma BarsCountEverySession(s: seq<Session>)
    requires forall i :: 0 <= i < |s| ==> WellTyped(s[i])
    ensures BarSum(TypeData(s)) == |s|
  {
    BarsCoverSessions(s);
    SumCongruent(s, x => if WellTyped(x) then 0 else 1, x => 0);
    ZeroSum(s);
  }

  lemma {:induction false} ZeroSum(s: seq<Session>)
    ensures Sum(s, x => 0) == 0
  {
    if s != [] {
      ZeroSum(s[1..]);
    }
  }

  /** `Math.round(totalMinutes / 60)`: the nearest whole hour, halves rounded up. */
  function RoundedHours(minutes: int): (h: int)
    ensures -30 < 60 * h - minutes <= 30
  {
    (minutes + 30) / 60
  }

  /** What the statistics panel shows. */
  datatype Summary = Summary(
    sessions: nat,
    totalMinutes: int,
    hours: int,
    totalPositions: int,
    totalDrills: int,
    types: seq<TypeCount>)

  /** The statistics panel: nothing for an empty list, otherwise the totals and the bars. */
  function Summarize(s: seq<Session>): (r: Option<Summary>)
    ensures r.None? <==> s == []
    ensures r.Some? ==> r.value.sessions == |s| && r.value.types == TypeData(s)
    ensures r.Some? ==> r.value.totalMinutes == TotalMinutes(s)
    ensures r.Some? ==> r.value.totalPositions == TotalPositions(s) && r.value.totalDrills == TotalDrills(s)
    ensures r.Some? ==> -30 < 60 * r.value.hours - r.value.totalMinutes <= 30
  {
    if |s| == 0 then None
    else
      var minutes := TotalMinutes(s);
      Some(Summary(|s|, minutes, RoundedHours(minutes), TotalPositions(s), TotalDrills(s), TypeData(s)))
  }

  lemma TallyPermutation(a: seq<Session>, b: seq<Session>, ts: seq<SessionType>)
    requires multiset(a) == multiset(b)
    ensures Tally(a, ts) == Tally(b, ts)
  {
    forall i | 0 <= i < |ts| ensures Count(a, ts[i]) == Count(b, ts[i]) {
      SumPermutation(a, b, OfKind(ts[i]));
    }
    assert Counts(a, ts) == Counts(b, ts);
  }

  /** The panel depends only on which sessions there are, not on their order. */
  lemma SummarizePermutation(a: seq<Session>, b: seq<Session>)
    requires multiset(a) == multiset(b)
    ensures Summarize(a) == Summarize(b)
  {
    assert |a| == |multiset(a)| == |b|;
    SumPermutation(a, b, Minutes);
    SumPermutation(a, b, PositionCount);
    SumPermutation(a, b, DrillCount);
    TallyPermutation(a, b, AllTypes);
  }

  /** The unfiltered timeline holds the same statistics as the store. */
  lemma UnfilteredViewSameSummary(store: seq<Session>)
    ensures Summarize(Query.View(store, "", None, None)) == Summarize(store)
  {
    Query.ViewWithoutFilters(store);
    SummarizePermutation(Query.View(store, "", None, None), store);
  }

  /** The "Mat Time" label: `${Math.floor(mins / 60)}h ${mins % 60}m`. */
  datatype MatTimeLabel = MatTimeLabel(hours: int, minutes: int)

  /** A positive multiple of a positive number is at least that number. */
  lemma MulAtLeast(b: int, n: int)
    requires b > 0 && n >= 1
    ensures b * n >= b
  {
    assert b * n == b * (n - 1) + b;
  }

  /** Euclidean division has one answer: a quotient and an in-range remainder fix `%`. */
  lemma ModUnique(a: int, b: int, q: int, r: int)
    requires b > 0 && a == b * q + r && 0 <= r < b
    ensures a % b == r
  {
    var d := a / b - q;
    assert b * d == r - a % b by {
      assert b * d == b * (a / b) - b * q;
    }
    if d >= 1 {
      MulAtLeast(b, d);
    } else if d <= -1 {
      MulAtLeast(b, -d);
    }
  }

  /** JavaScript's `%`: what is left of the dividend after taking out a whole multiple
      of the divisor, with the sign of the dividend. */
  function JsRem(a: int, b: int): (r: int)
    requires b > 0
    ensures (a - r) % b == 0
    ensures a >= 0 ==> 0 <= r < b
    ensures a < 0 ==> -b < r <= 0
  {
    if a >= 0 then
      ModUnique(a - a % b, b, a / b, 0);
      a % b
    else
      var q := (-a) / b;
      assert a + (-a) % b == b * -q by {
        assert -a == b * q + (-a) % b;
        assert b * -q == -(b * q);
      }
      ModUnique(b * -q, b, -q, 0);
      -((-a) % b)
  }

  /** The three clauses of `JsRem` leave no choice: any value meeting them is `JsRem`. */
  lemma JsRemUnique(a: int, b: int, r: int)
    requires b > 0
    requires (a - r) % b == 0
    requires a >= 0 ==> 0 <= r < b
    requires a < 0 ==> -b < r <= 0
    ensures r == JsRem(a, b)
  {
    var s := JsRem(a, b);
    var k := (a - r) / b;
    var m := (a - s) / b;
    var d := m - k;
    assert r - s == b * d by {
      assert a - r == b * k + (a - r) % b;
      assert a - s == b * m + (a - s) % b;
      assert b * d == b * m - b * k;
    }
    if d >= 1 {
      MulAtLeast(b, d);
    } else if d <= -1 {
      MulAtLeast(b, -d);
    }
  }

  /** The header label for the whole store. */
  function MatTime(store: seq<Session>): (r: MatTimeLabel)
    ensures var mins := TotalMinutes(store);
      60 * r.hours <= mins < 60 * r.hours + 60
      && (mins >= 0 ==> 60 * r.hours + r.minutes == mins && 0 <= r.minutes < 60)
      && (mins < 0 ==> -60 < r.minutes <= 0)
      && (mins - r.minutes) % 60 == 0
  {
    var mins := TotalMinutes(store);
    MatTimeLabel(mins / 60, JsRem(mins, 60))
  }

  /** With a negative total that is not a whole number of hours the two parts of the
      label no longer add up: the floored hours and the truncated remainder both
      count the partial hour. */
  lemma MatTimeNegative(store: seq<Session>)
    requires TotalMinutes(store) < 0 && TotalMinutes(store) % 60 != 0
    ensures 60 * MatTime(store).hours + MatTime(store).minutes < TotalMinutes(store)
  {
  }

  /** The panel rounds to the nearest hour while the header truncates: they differ by
      one hour exactly when the leftover minutes are 30 or more. */
  lemma HourDisplaysDisagree(store: seq<Session>)
    requires store != [] && TotalMinutes(store) >= 0
    ensures Summarize(store).value.hours
            == MatTime(store).hours + (if MatTime(store).minutes >= 30 then 1 else 0)
  {
  }

  /** The example store of two sessions, 60 and 30 minutes, totals 90 minutes. */
  lemma NinetyMinuteScenario(gi: Session, nogi: Session)
    requires gi.duration == 60 && nogi.duration == 30
    ensures Summarize([gi, nogi]).value.sessions == 2
    ensures Summarize([gi, nogi]).value.totalMinutes == 90
    ensures MatTime([gi, nogi]) == MatTimeLabel(1, 30)
  {
    assert [gi, nogi][1..] == [nogi];
    assert [nogi][1..] == [];
    assert Sum([], Minutes) == 0;
    assert Minutes(nogi) == 30;
    assert TotalMinutes([nogi]) == 30;
    assert TotalMinutes([gi, nogi]) == 90;
  }
}

=== FILE: store.dfy ===
/**
 The session store of the root component (App.tsx): an ordered list of
 sessions, newest addition first. Adding prepends; deleting removes by id
 once the user has confirmed. Persistence, the id generator and the
 confirmation dialog are outside the model: the id and the user's answer
 arrive as parameters.
 */
module Store {
  import opened Types

  /** `a` is `b` with some elements left out, the rest in their original order. */
  ghost predicate IsSubsequence<T>(a: seq<T>, b: seq<T>)
    decreases |b|
  {
    a == [] || (b != [] && ((a[0] == b[0] && IsSubsequence(a[1..], b[1..])) || IsSubsequence(a, b[1..])))
  }

  lemma {:induction false} SubsequenceRefl<T>(a: seq<T>)
    ensures IsSubsequence(a, a)
    decreases |a|
  {
    if a != [] {
      SubsequenceRefl(a[1..]);
    }
  }

  /** `handleAddSession`: the draft, stamped with a fresh id, goes in front of the store. */
  function Add(store: seq<Session>, d: Draft, id: string): (r: seq<Session>)
    requires FreshId(store, id)
    ensures |r| == |store| + 1
    ensures r[0].id == id && Unstamp(r[0]) == d
    ensures r[1..] == store
    ensures UniqueIds(store) ==> UniqueIds(r)
  {
    [Stamp(d, id)] + store
  }

  /** The store with every session carrying `id` filtered out. */
  function Without(store: seq<Session>, id: string): (r: seq<Session>)
    ensures forall x :: multiset(r)[x] == if x.id == id then 0 else multiset(store)[x]
    ensures IsSubsequence(r, store)
    ensures FreshId(r, id)
  {
    if store == [] then []
    else
      var rest := Without(store[1..], id);
      assert store == [store[0]] + store[1..];
      if store[0].id == id then rest
      else
        assert ([store[0]] + rest)[1..] == rest;
        [store[0]] + rest
  }

  /** `handleDeleteSession`: removes the sessions with `id` when the user confirms. */
  function Delete(store: seq<Session>, id: string, confirmed: bool): (r: seq<Session>)
    ensures confirmed ==> forall x :: multiset(r)[x] == if x.id == id then 0 else multiset(store)[x]
    ensures confirmed ==> FreshId(r, id)
    ensures IsSubsequence(r, store)
    ensures !confirmed ==> r == store
  {
    SubsequenceRefl(store);
    if confirmed then Without(store, id) else store
  }

  /** Deleting an id no session carries leaves the store exactly as it was. */
  lemma {:induction false} DeleteAbsent(store: seq<Session>, id: string, confirmed: bool)
    requires FreshId(store, id)
    ensures Delete(store, id, confirmed) == store
  {
    if confirmed {
      WithoutAbsent(store, id);
    }
  }

  lemma {:induction false} WithoutAbsent(store: seq<Session>, id: string)
    requires FreshId(store, id)
    ensures Without(store, id) == store
  {
    if store != [] {
      assert FreshId(store[1..], id) by {
        forall i | 0 <= i < |store[1..]| ensures store[1..][i].id != id {
          assert store[1..][i] == store[i + 1];
        }
      }
      WithoutAbsent(store[1..], id);
      assert store[0].id != id;
    }
  }

  /** A subsequence of a store with unique ids has unique ids. */
  lemma {:induction false} SubsequenceKeepsUniqueIds(a: seq<Session>, b: seq<Session>)
    requires IsSubsequence(a, b) && UniqueIds(b)
    ensures UniqueIds(a)
    decreases |b|
  {
    if a != [] {
      if a[0] == b[0] && IsSubsequence(a[1..], b[1..]) {
        SubsequenceKeepsUniqueIds(a[1..], b[1..]);
        forall j | 0 < j < |a| ensures a[0].id != a[j].id {
          SubsequenceMember(a[1..], b[1..], j - 1);
        }
      } else {
        SubsequenceKeepsUniqueIds(a, b[1..]);
      }
    }
  }

  /** Every element of a subsequence is an element of the longer sequence. */
  lemma {:induction false} SubsequenceMember<T>(a: seq<T>, b: seq<T>, i: int)
    requires IsSubsequence(a, b) && 0 <= i < |a|
    ensures exists j :: 0 <= j < |b| && b[j] == a[i]
    decreases |b|
  {
    if a[0] == b[0] && IsSubsequence(a[1..], b[1..]) {
      if i > 0 {
        SubsequenceMember(a[1..], b[1..], i - 1);
        var j :| 0 <= j < |b[1..]| && b[1..][j] == a[1..][i - 1];
        assert b[j + 1] == a[i];
      } else {
        assert b[0] == a[i];
      }
    } else {
      SubsequenceMember(a, b[1..], i);
      var j :| 0 <= j < |b[1..]| && b[1..][j] == a[i];
      assert b[j + 1] == a[i];
    }
  }

  /** Deleting keeps the ids of the store unique. */
  lemma DeleteKeepsUniqueIds(store: seq<Session>, id: string, confirmed: bool)
    requires UniqueIds(store)
    ensures UniqueIds(Delete(store, id, confirmed))
  {
    SubsequenceKeepsUniqueIds(Delete(store, id, confirmed), store);
  }
}

=== FILE: text.dfy ===
/**
 The string primitives the journal relies on: `trim`, `toLowerCase`,
 `toUpperCase`, `includes` and `join`, as JavaScript defines them.

 Trimming uses JavaScript's full white-space and line-terminator set. Case
 mapping covers ASCII and the Latin-1 letters only (enough for the
 Portuguese labels of the journal); other scripts map to themselves here.
 */
module Text {

  /** JavaScript's WhiteSpace and LineTerminator characters, which `trim` removes. */
  const Spaces: set<char> := {
    ' ', '\t', '\n', '\r', '\U{000B}', '\U{000C}', '\U{00A0}', '\U{1680}',
    '\U{2000}', '\U{2001}', '\U{2002}', '\U{2003}', '\U{2004}', '\U{2005}',
    '\U{2006}', '\U{2007}', '\U{2008}', '\U{2009}', '\U{200A}',
    '\U{2028}', '\U{2029}', '\U{202F}', '\U{205F}', '\U{3000}', '\U{FEFF}'
  }

  predicate IsSpace(c: char) {
    c in Spaces
  }

  predicate AllSpace(s: string) {
    forall i :: 0 <= i < |s| ==> IsSpace(s[i])
  }

  /** Neither starts nor ends with white space. */
  predicate Trimmed(s: string) {
    s == [] || (!IsSpace(s[0]) && !IsSpace(s[|s| - 1]))
  }

  /** How many white-space characters `trim` drops at the front. */
  function Lead(s: string): (n: nat)
    ensures n <= |s|
    ensures forall i :: 0 <= i < n ==> IsSpace(s[i])
    ensures n < |s| ==> !IsSpace(s[n])
  {
    if s != [] && IsSpace(s[0]) then
      var n := 1 + Lead(s[1..]);
      assert forall i :: 0 < i < n ==> s[i] == s[1..][i - 1];
      n
    else 0
  }

  /** How many white-space characters `trim` drops at the end. */
  function Trail(s: string): (n: nat)
    ensures n <= |s|
    ensures forall i :: |s| - n <= i < |s| ==> IsSpace(s[i])
    ensures n < |s| ==> !IsSpace(s[|s| - 1 - n])
  {
    if s != [] && IsSpace(s[|s| - 1]) then
      var t := s[..|s| - 1];
      var n := 1 + Trail(t);
      assert forall i :: |s| - n <= i < |s| - 1 ==> s[i] == t[i];
      n
    else 0
  }

  /** `s.trim()`: `s` with the white space at both ends removed. */
  function Trim(s: string): (r: string)
    ensures Trimmed(r)
    ensures Lead(s) + |r| <= |s| && r == s[Lead(s)..Lead(s) + |r|]
    ensures AllSpace(s[Lead(s) + |r|..])
  {
    var i := Lead(s);
    var u := s[i..];
    var k := Trail(u);
    var r := s[i..|s| - k];
    assert Trimmed(r) by {
      if r != [] {
        assert r[0] == s[i];
        assert r[|r| - 1] == u[|u| - 1 - k];
      }
    }
    assert AllSpace(s[i + |r|..]) by {
      forall j | i + |r| <= j < |s| ensures IsSpace(s[j]) {
        assert s[j] == u[j - i];
      }
    }
    r
  }

  /** A trimmed string is its own trim. */
  lemma TrimOfTrimmed(s: string)
    requires Trimmed(s)
    ensures Trim(s) == s
  {
    assert Lead(s) == 0;
    assert s[0..] == s;
  }

  /** Trimming twice is trimming once. */
  lemma TrimIdempotent(s: string)
    ensures Trim(Trim(s)) == Trim(s)
  {
    TrimOfTrimmed(Trim(s));
  }

  /** `s.trim()` is falsy exactly when `s` is blank. */
  lemma {:induction false} TrimEmptyIffBlank(s: string)
    ensures Trim(s) == [] <==> AllSpace(s)
  {
    var r := Trim(s);
    var i := Lead(s);
    if r == [] {
      assert i == |s|;
    } else {
      assert s[i] == r[0];
    }
  }

  function LowerChar(c: char): char {
    if 'A' <= c <= 'Z' || ('\U{00C0}' <= c <= '\U{00DE}' && c != '\U{00D7}')
    then (c as int + 32) as char
    else c
  }

  function UpperChar(c: char): char {
    if 'a' <= c <= 'z' || ('\U{00E0}' <= c <= '\U{00FE}' && c != '\U{00F7}')
    then (c as int - 32) as char
    else c
  }

  predicate IsUpper(c: char) {
    'A' <= c <= 'Z' || ('\U{00C0}' <= c <= '\U{00DE}' && c != '\U{00D7}')
  }

  /** `s.toLowerCase()`, character by character. */
  function Lower(s: string): (r: string)
    ensures |r| == |s|
    ensures forall i :: 0 <= i < |s| ==> r[i] == LowerChar(s[i]) && !IsUpper(r[i])
  {
    if s == [] then [] else [LowerChar(s[0])] + Lower(s[1..])
  }

  /** `Lower(s)` is the string whose every character is the lower-case of the one below it. */
  lemma LowerPointwise(s: string, t: string)
    requires |s| == |t|
    requires forall i :: 0 <= i < |s| ==> LowerChar(s[i]) == t[i]
    ensures Lower(s) == t
  {
  }

  /** Lower-casing is idempotent, and it leaves the empty string alone. */
  lemma LowerIdempotent(s: string)
    ensures Lower(Lower(s)) == Lower(s)
    ensures Lower(s) == [] <==> s == []
  {
  }

  /** `p` occurs in `s` starting at `i`. */
  predicate OccursAt(s: string, p: string, i: int) {
    0 <= i && i + |p| <= |s| && s[i..i + |p|] == p
  }

  function StartsWith(s: string, p: string): (r: bool)
    ensures r <==> OccursAt(s, p, 0)
  {
    |p| <= |s| && s[..|p|] == p
  }

  /** `s.includes(p)`: a left-to-right scan for an occurrence of `p`. */
  function Includes(s: string, p: string): (r: bool)
    ensures r <==> exists i :: OccursAt(s, p, i)
  {
    if StartsWith(s, p) then true
    else if s == [] then false
    else
      var r := Includes(s[1..], p);
      assert forall i :: 0 <= i ==> (OccursAt(s[1..], p, i) <==> OccursAt(s, p, i + 1)) by {
        forall i | 0 <= i ensures OccursAt(s[1..], p, i) <==> OccursAt(s, p, i + 1) {
          OccursShift(s, p, i);
        }
      }
      assert forall i :: OccursAt(s, p, i) ==> OccursAt(s[1..], p, i - 1);
      r
  }

  lemma OccursShift(s: string, p: string, i: int)
    requires s != [] && 0 <= i
    ensures OccursAt(s[1..], p, i) <==> OccursAt(s, p, i + 1)
  {
    if 0 <= i && i + |p| <= |s| - 1 {
      assert s[1..][i..i + |p|] == s[i + 1..i + 1 + |p|];
    }
  }

  /** `xs.join(sep)`. */
  function Join(xs: seq<string>, sep: string): string {
    if xs == [] then []
    else if |xs| == 1 then xs[0]
    else xs[0] + sep + Join(xs[1..], sep)
  }

  function TotalLength(xs: seq<string>): nat {
    if xs == [] then 0 else |xs[0]| + TotalLength(xs[1..])
  }

  /** The joined string holds every element and one separator between each two. */
  lemma {:induction false} JoinLength(xs: seq<string>, sep: string)
    requires xs != []
    ensures |Join(xs, sep)| == TotalLength(xs) + (|xs| - 1) * |sep|
  {
    if |xs| > 1 {
      JoinLength(xs[1..], sep);
      var n := |xs| - 1;
      assert n * |sep| == (n - 1) * |sep| + |sep|;
    }
  }

  /** Appending an element to the list appends one separator and the element. */
  lemma {:induction false} JoinSnoc(xs: seq<string>, y: string, sep: string)
    requires xs != []
    ensures Join(xs + [y], sep) == Join(xs, sep) + sep + y
  {
    if |xs| == 1 {
      assert xs + [y] == [xs[0], y];
    } else {
      assert (xs + [y])[1..] == xs[1..] + [y];
      JoinSnoc(xs[1..], y, sep);
    }
  }
}

=== FILE: types.dfy ===
/**
 The record types of the training journal: the closed enumeration of session
 types and the training-session record (types.ts).

 At run time a TypeScript string enum is just a string, and sessions loaded
 from storage are never validated, so a session keeps the raw string of its
 `type` field (`kind`); `ParseType` recovers the enumeration value when the
 string is one of the five labels.
 */
module Types {

  datatype Option<+T> = None | Some(value: T)

  /** The five session types, in declaration order. */
  datatype SessionType = Gi | NoGi | Drill | OpenMat | Competition

  /** The string value each enumeration member carries. */
  function Label(t: SessionType): string {
    match t
    case Gi => "Gi"
    case NoGi => "No-Gi"
    case Drill => "Drill/Técnica"
    case OpenMat => "Open Mat"
    case Competition => "Competição"
  }

  /** Position of a member in declaration order. */
  function Ordinal(t: SessionType): nat {
    match t
    case Gi => 0
    case NoGi => 1
    case Drill => 2
    case OpenMat => 3
    case Competition => 4
  }

  /** `Object.values(SessionType)`: every member once, in declaration order. */
  const AllTypes: seq<SessionType> := [Gi, NoGi, Drill, OpenMat, Competition]

  /** The enumeration member whose value is `s`, if any. */
  function ParseType(s: string): (r: Option<SessionType>)
    ensures r.Some? ==> Label(r.value) == s
  {
    if s == "Gi" then Some(Gi)
    else if s == "No-Gi" then Some(NoGi)
    else if s == "Drill/Técnica" then Some(Drill)
    else if s == "Open Mat" then Some(OpenMat)
    else if s == "Competição" then Some(Competition)
    else None
  }

  lemma ParseLabel(t: SessionType)
    ensures ParseType(Label(t)) == Some(t)
  {
  }

  /** The enumeration has exactly five members, listed once each in declaration order. */
  lemma AllTypesEnumerates()
    ensures |AllTypes| == 5
    ensures forall i :: 0 <= i < |AllTypes| ==> Ordinal(AllTypes[i]) == i
    ensures forall t: SessionType :: t in AllTypes
  {
    forall t: SessionType ensures t in AllTypes {
      assert AllTypes[Ordinal(t)] == t;
    }
  }

  /** Distinct members carry distinct values. */
  lemma LabelInjective(a: SessionType, b: SessionType)
    ensures Label(a) == Label(b) <==> a == b
  {
    ParseLabel(a);
    ParseLabel(b);
  }

  /** One logged training event. `title` and `coach` are the optional fields. */
  datatype Session = Session(
    id: string,
    title: Option<string>,
    date: int,            // calendar day number
    kind: string,         // value of the `type` field
    duration: int,        // minutes
    intensity: int,       // documented as 1..5
    positions: seq<string>,
    drills: seq<string>,
    notes: string,
    partners: seq<string>,
    coach: Option<string>)

  /** A session before the store gives it an id (`Omit<TrainingSession, 'id'>`). */
  datatype Draft = Draft(
    title: Option<string>,
    date: int,
    kind: string,
    duration: int,
    intensity: int,
    positions: seq<string>,
    drills: seq<string>,
    notes: string,
    partners: seq<string>,
    coach: Option<string>)

  /** `{ ...data, id }`: the draft's fields plus the given id. */
  function Stamp(d: Draft, id: string): (s: Session)
    ensures s.id == id
  {
    Session(id, d.title, d.date, d.kind, d.duration, d.intensity,
            d.positions, d.drills, d.notes, d.partners, d.coach)
  }

  /** Drops the id again. */
  function Unstamp(s: Session): Draft {
    Draft(s.title, s.date, s.kind, s.duration, s.intensity,
          s.positions, s.drills, s.notes, s.partners, s.coach)
  }

  /** Stamping keeps every field of the draft and nothing else changes. */
  lemma StampRoundTrip(d: Draft, id: string, s: Session)
    ensures Unstamp(Stamp(d, id)) == d
    ensures Stamp(Unstamp(s), s.id) == s
  {
  }

  /** The `type` field holds one of the five enumeration values. */
  predicate WellTyped(s: Session) {
    ParseType(s.kind).Some?
  }

  /** The documented range of `intensity`; the type does not enforce it. */
  predicate ValidIntensity(s: Session) {
    1 <= s.intensity <= 5
  }

  /** `duration` counts minutes, so it is meant to be non-negative; the type does not enforce it. */
  predicate ValidDuration(s: Session) {
    0 <= s.duration
  }

  /** Ids are unique across the store. */
  ghost predicate UniqueIds(store: seq<Session>) {
    forall i, j :: 0 <= i < j < |store| ==> store[i].id != store[j].id
  }

  /** No session of the store carries `id`. */
  predicate FreshId(store: seq<Session>, id: string) {
    forall i :: 0 <= i < |store| ==> store[i].id != id
  }
}
